=== FILE: README.md ===
# Okavango Delta flood mapping — a Dafny model

Two Earth Engine scripts make up the pipeline:

- `OkavangoDelta_LandsatComposites.js` builds annual July–September SWIR (band B7) composites of the Okavango Delta from Landsat 5, 7 and 8 surface-reflectance scenes. It masks clouds and cloud shadows with the `pixel_qa` quality word and fills gaps against a one-year-either-side neighbourhood. It then takes a median per three-month window and discards defective composites.
- `Script_2-Creating_flood_maps.js` classifies each composite into a binary flood map with an adaptive threshold `wet + 0.3·(dry − wet)`. It sums the flood maps into an interannual flood-frequency raster and tabulates the flooded area per year.

The model treats images as abstract rasters. A raster is a sequence of pixels over a fixed grid. Each pixel is `Option<value>`, where `None` means masked. Every step of the scripts is a pure function over such rasters, over immutable records (composites and flood maps with their date tags) and over sequences of them. The hosted platform's reducers (median, linear fit, region sums) and geometry are opaque inputs.

Modules:

- `Wrappers` (wrappers.dfy): `Option`.
- `Seqs` (seqs.dfy): order-preserving `Filter`, `IsSubsequence`, `SumBy`, and their lemmas (counts kept, transitivity of subsequences, commutation, permutation invariance of sums).
- `Calendar` (calendar.dfy): dates, instants, month arithmetic, the `YYYY-MM-dd` tag, its parser and the round trip.
- `Rasters` (rasters.dfy): pixel and scene types, `updateMask`, band selection, date filtering, uint16/int16 casts.
- `CloudMask` (cloud_mask.dfy): the Landsat 8 and Landsat 5/7 cloud masks.
- `GapFill` (gap_fill.dfy): the gap-fill neighbourhood and the footprint-preserving unmask step.
- `Composites` (composites.dfy): month offsets, seasonal windows, composite records, the probe and manual filters, and the configured 1990–2019 range.
- `FloodMaps` (flood_maps.dfy): threshold, classification, the interannual sum and the area table.

Modelling choices worth knowing:

- Masks are binary (`Some`/`None`). When the mask image given to `updateMask` is itself masked at a pixel, the model masks that pixel, so a masked `pixel_qa` word masks the whole pixel.
- The uint16 cast truncates toward zero and then saturates to [0, 65535]. The int16 cast saturates to [−32768, 32767]. The scripts do not state the platform's cast policy; this one is documented and never yields a negative value.
- Month arithmetic keeps the day of month and clamps it to the last day of a shorter month. All configured windows start on day 1, so the clamp never applies to them.
- `ee.List.sequence(6, n_months, 12)` is modelled as the offsets `6 + 12i` that are at most `n_months`. This list is empty when `n_months < 6`.
- The `YYYY` pattern prints the year of era with at least four digits.
- The gap-fill neighbourhood is never empty. It is drawn from the collection the scene belongs to and always contains the scene itself (`GapFill.SceneInOwnNeighbourhood`). A pixel where the fill raster is masked stays masked.
- `unmask(scaled, true)` keeps the scene's footprint. Every scene lives on the common grid together with a per-pixel footprint flag; a masked pixel inside the footprint is filled, one outside it stays masked (`GapFill.GapFill`).
- A composite built from an empty window has no band, so its probe-region sum sets no `area` property. `Composites.ProbeValue` derives the probe sum from the record: `None` exactly for a zero-band composite. The model treats a missing property as not equal to 0, so such a composite passes both probe filters (`Composites.EmptyCompositesPassProbes`).
- A reference-region median that yields nothing has no default in the code: `ee.Number(null)` fails. `FloodMaps.Classify` returns `None` for that composite. `FloodMaps.ClassifyAll` returns `None` for the whole collection, because one failing image fails the mapped collection.

## Model

| member | source | states |
|---|---|---|
| CloudMask.ClearL8 | GoogleEarthEngine_code/OkavangoDelta_LandsatComposites.js:72-75 | The Landsat 8 test is clear iff bit 3 (cloud shadow) and bit 5 (cloud) of `pixel_qa` are both 0, stated against bits read by shifting |
| CloudMask.ClearL8IgnoresOtherBits | GoogleEarthEngine_code/OkavangoDelta_LandsatComposites.js:72-75 | Flipping any bit other than 3 and 5 never changes the Landsat 8 verdict |
| CloudMask.CloudMaskL8 | GoogleEarthEngine_code/OkavangoDelta_LandsatComposites.js:71-76 | A pixel with a valid and clear quality word is kept unchanged; every other pixel is masked in all bands; the result only masks (MaskedFrom) and keeps the acquisition time |
| CloudMask.CloudyL57 | GoogleEarthEngine_code/OkavangoDelta_LandsatComposites.js:81 | Landsat 5/7 cloud iff bit 3 is set, or bits 5 and 7 are both set |
| CloudMask.CloudyL57IgnoresOtherBits | GoogleEarthEngine_code/OkavangoDelta_LandsatComposites.js:81 | Flipping any bit other than 3, 5 and 7 never changes the Landsat 5/7 verdict |
| CloudMask.CloudyL57Examples | GoogleEarthEngine_code/OkavangoDelta_LandsatComposites.js:81 | Bit 5 alone or bit 7 alone is not cloud; bits 5+7 together, or bit 3, are; an all-zero word is clear |
| CloudMask.CloudMaskL57 | GoogleEarthEngine_code/OkavangoDelta_LandsatComposites.js:79-83 | A pixel with a masked or cloudy quality word is masked; a pixel masked in any band is masked in all bands (minimum of band masks); a clear pixel valid in every band is kept unchanged; the result only masks |
| Rasters.UpdateMask | GoogleEarthEngine_code/OkavangoDelta_LandsatComposites.js:76 | Masking is monotone: every valid value afterwards was valid before with the same value, and the band layout is unchanged |
| Rasters.MaskedFromTransitive | GoogleEarthEngine_code/OkavangoDelta_LandsatComposites.js:83 | Two successive mask updates still only mask |
| CloudMask.SelectedBandAfterL8 | GoogleEarthEngine_code/OkavangoDelta_LandsatComposites.js:71-76 | After the Landsat 8 mask and band selection, a value is valid iff the quality word was valid and clear and the band was valid, and it is the original reflectance |
| CloudMask.SelectedBandAfterL57 | GoogleEarthEngine_code/OkavangoDelta_LandsatComposites.js:79-83 | After the Landsat 5/7 masks and band selection, a value is valid iff the quality word was valid and not cloudy and every band of the pixel was valid, and it is the original reflectance |
| Rasters.ToUint16 | GoogleEarthEngine_code/OkavangoDelta_LandsatComposites.js:115 | The uint16 cast lands in [0, 65535], truncates in-range values, and saturates below 0 and above 65535 |
| Rasters.ToUint16OfInRange | GoogleEarthEngine_code/OkavangoDelta_LandsatComposites.js:115 | An integer already in [0, 65535] survives the uint16 cast |
| Rasters.SelectBand | GoogleEarthEngine_code/OkavangoDelta_LandsatComposites.js:96 | Selecting B7 keeps the acquisition time and, pixel by pixel, exactly the B7 value with its mask |
| Rasters.CastUint16 | GoogleEarthEngine_code/OkavangoDelta_LandsatComposites.js:115 | The pixelwise uint16 cast keeps every mask and maps each valid value through the truncate-then-saturate cast |
| Rasters.ToInt16 | GoogleEarthEngine_code/Script_2-Creating_flood_maps.js:276 | The int16 cast lies in [−32768, 32767], is the identity inside that range and saturates outside it |
| Rasters.FilterDate | GoogleEarthEngine_code/OkavangoDelta_LandsatComposites.js:108 | A date filter keeps, in order, exactly the scenes with start ≤ time < end, every copy of each |
| Rasters.FilterDateIgnoresOutside | GoogleEarthEngine_code/OkavangoDelta_LandsatComposites.js:108 | Scenes acquired outside the range, appended or prepended, do not change a date filter's result |
| Calendar.AddMonths | GoogleEarthEngine_code/OkavangoDelta_LandsatComposites.js:129-130 | Advancing by n months yields a valid date n months later in month index; the day is kept, or clamped to the month's last day |
| Calendar.AdvanceYears | GoogleEarthEngine_code/OkavangoDelta_LandsatComposites.js:106-107 | Advancing by n years moves the year by n, keeps the month and the time of day, and keeps the day of month, clamped to the month's last day (Feb 29 becomes Feb 28) |
| Calendar.InOwnYearWindow | GoogleEarthEngine_code/OkavangoDelta_LandsatComposites.js:106-108 | Every instant lies in [t − 1 year, t + 1 year) |
| Calendar.DigitsRoundTrip | GoogleEarthEngine_code/OkavangoDelta_LandsatComposites.js:139 | Zero-padded digits are all digits, read back to the number, and take exactly `width` characters when the number fits |
| Calendar.Format | GoogleEarthEngine_code/OkavangoDelta_LandsatComposites.js:139 | A tag of a year from 1 to 9999 is exactly 10 characters long |
| Calendar.FormatDigits | GoogleEarthEngine_code/OkavangoDelta_LandsatComposites.js:139 | For years 1 to 9999 the tag is the four zero-padded year digits, a dash, the two month digits, a dash, and the two day digits |
| Calendar.ParseDate | GoogleEarthEngine_code/OkavangoDelta_LandsatComposites.js:123 | A parsed `YYYY-MM-dd` string is always a real calendar day |
| Calendar.FormatParseRoundTrip | GoogleEarthEngine_code/OkavangoDelta_LandsatComposites.js:139 | Parsing a formatted date returns that date (years 1 to 9999) |
| Calendar.FormatInjective | GoogleEarthEngine_code/OkavangoDelta_LandsatComposites.js:175 | Two dates have the same tag iff they are the same date, so a tag comparison is a date comparison |
| GapFill.Neighbourhood | GoogleEarthEngine_code/OkavangoDelta_LandsatComposites.js:106-108 | The neighbourhood is exactly the scenes of the collection dated in [date − 1 year, date + 1 year), in collection order and with every copy kept |
| GapFill.SceneInOwnNeighbourhood | GoogleEarthEngine_code/OkavangoDelta_LandsatComposites.js:106-108 | A scene of the collection always belongs to its own neighbourhood, so that neighbourhood is never empty |
| GapFill.Unmask | GoogleEarthEngine_code/OkavangoDelta_LandsatComposites.js:115 | A valid pixel keeps its value; a masked pixel inside the footprint takes the fill value, or stays masked where the fill is masked; a pixel outside the footprint stays masked |
| GapFill.GapFill | GoogleEarthEngine_code/OkavangoDelta_LandsatComposites.js:109-115 | A pixel is valid afterwards iff it was valid, or it lies in the footprint and the fill is valid there; a valid pixel ignores the fill and is left unchanged when in uint16 range; a masked pixel in the footprint takes the cast fill value, one outside is never filled; the output lies in [0, 65535] |
| GapFill.GapFillIn | GoogleEarthEngine_code/OkavangoDelta_LandsatComposites.js:105-115 | A scene of a collection keeps its time and its valid pixels (cast only); each masked pixel takes the value fitted from the scene's ±1-year neighbourhood in that collection, inside the footprint only |
| GapFill.GapFillInIgnoresFarScenes | GoogleEarthEngine_code/OkavangoDelta_LandsatComposites.js:106-108 | Adding scenes dated outside [date − 1 year, date + 1 year) before or after the collection changes neither the neighbourhood nor the gap-filled scene |
| GapFill.GapFillCompleteIsIdentity | GoogleEarthEngine_code/OkavangoDelta_LandsatComposites.js:115 | On a scene valid everywhere inside its footprint, with uint16-range values, gap filling is the identity whatever the fill |
| GapFill.GapFillIdempotent | GoogleEarthEngine_code/OkavangoDelta_LandsatComposites.js:115 | After a fill with a complete fill raster, filling again over the same footprint changes nothing |
| Composites.Offsets | GoogleEarthEngine_code/OkavangoDelta_LandsatComposites.js:127-128 | The offsets are 6 + 12i in order, each at most n_months, and the next one would exceed n_months |
| Composites.OffsetsExact | GoogleEarthEngine_code/OkavangoDelta_LandsatComposites.js:128 | k is an offset iff 6 ≤ k ≤ n_months and k ≡ 6 (mod 12) |
| Composites.WindowAt | GoogleEarthEngine_code/OkavangoDelta_LandsatComposites.js:129-135 | A window opens k months after Start and closes 3 months after it opens, strictly later; day 1 stays day 1 |
| Composites.Windows | GoogleEarthEngine_code/OkavangoDelta_LandsatComposites.js:128-135 | One window per offset; window i opens 6 + 12i months after Start, lasts 3 months, and closes strictly before window i + 1 opens |
| Composites.WindowsDisjoint | GoogleEarthEngine_code/OkavangoDelta_LandsatComposites.js:132-137 | No instant lies in two windows |
| Composites.Compose | GoogleEarthEngine_code/OkavangoDelta_LandsatComposites.js:132-142 | A composite carries its window's start and end tags; it has 0 bands iff no scene falls in the window, otherwise 1; a zero-band composite has no pixel; a one-band composite is the uint16 cast of the median of exactly the window's scenes; its values lie in the uint16 range |
| Composites.AnnualComposites | GoogleEarthEngine_code/OkavangoDelta_LandsatComposites.js:126-144 | One composite per window, in window order: composite i is `Compose` of window i over the same scenes and median, tagged with that window's dates |
| Composites.ProbeFilter | GoogleEarthEngine_code/OkavangoDelta_LandsatComposites.js:155-162 | The probe filter keeps order (subsequence) and keeps every copy of exactly the composites whose probe sum is not a present 0 (a missing sum passes) |
| Composites.ProbeValue | GoogleEarthEngine_code/OkavangoDelta_LandsatComposites.js:155-160 | A composite's probe sum is absent iff it has no band; otherwise it is the area-weighted sum |
| Composites.EmptyCompositesPassProbes | GoogleEarthEngine_code/OkavangoDelta_LandsatComposites.js:155-175 | A zero-band composite not tagged "1993-07-01" survives all three filters, with every copy kept |
| Composites.ProbeFilterNoOp | GoogleEarthEngine_code/OkavangoDelta_LandsatComposites.js:162 | A probe filter over composites with nonzero probe sums removes nothing |
| Composites.ProbeFiltersCommute | GoogleEarthEngine_code/OkavangoDelta_LandsatComposites.js:155-172 | The west and east probe filters give the same result in either order |
| Composites.ManualFilter | GoogleEarthEngine_code/OkavangoDelta_LandsatComposites.js:175 | The manual filter keeps order and keeps every copy of exactly the composites whose start tag is not "1993-07-01" |
| Composites.FilterComposites | GoogleEarthEngine_code/OkavangoDelta_LandsatComposites.js:155-175 | The three filters keep order (subsequence) and every copy of exactly the composites whose probe sums are both not a present 0 and whose start tag is not "1993-07-01" |
| Seqs.SubsequenceTransitive | GoogleEarthEngine_code/OkavangoDelta_LandsatComposites.js:155-175 | Filtering a filtered collection again still yields a subsequence of the original |
| Composites.ConfiguredStartParses | GoogleEarthEngine_code/OkavangoDelta_LandsatComposites.js:123 | The configured start string parses to 1990-01-01 |
| Composites.ConfiguredWindows | GoogleEarthEngine_code/OkavangoDelta_LandsatComposites.js:123-135 | Start 1990-01-01 with 360 months gives 30 windows; window i runs from July 1 to October 1 of year 1990 + i |
| Composites.ConfiguredCompositeTags | GoogleEarthEngine_code/OkavangoDelta_LandsatComposites.js:139 | The i-th configured composite is tagged with July 1 and October 1 of year 1990 + i |
| Composites.FirstAndLastTags | GoogleEarthEngine_code/OkavangoDelta_LandsatComposites.js:139 | The tags of the first and last configured windows are the strings 1990-07-01 / 1990-10-01 and 2019-07-01 / 2019-10-01 |
| Composites.ConfiguredTags | GoogleEarthEngine_code/OkavangoDelta_LandsatComposites.js:123-144 | The configured collection has 30 composites, the first tagged "1990-07-01"/"1990-10-01" and the last "2019-07-01"/"2019-10-01" |
| Composites.ManualFilterOnTags | GoogleEarthEngine_code/OkavangoDelta_LandsatComposites.js:175 | On 30 composites tagged July 1 of 1990 + i, the manual filter deletes the fourth and nothing else |
| Composites.ConfiguredManualFilter | GoogleEarthEngine_code/OkavangoDelta_LandsatComposites.js:175 | On the configured composites the manual filter deletes exactly the 1993 composite |
| Seqs.Filter | GoogleEarthEngine_code/OkavangoDelta_LandsatComposites.js:162 | A metadata filter returns no more elements than it is given, all of them pass, and their order is preserved |
| Seqs.FilterCounts | GoogleEarthEngine_code/OkavangoDelta_LandsatComposites.js:162 | A filter keeps every occurrence of a passing element and none of a failing one |
| Seqs.FilterRemovesOnly | GoogleEarthEngine_code/OkavangoDelta_LandsatComposites.js:175 | When only element k fails, the filter removes exactly element k |
| Seqs.FilterCommutes | GoogleEarthEngine_code/OkavangoDelta_LandsatComposites.js:155-175 | Independent filters commute |
| FloodMaps.Threshold | GoogleEarthEngine_code/Script_2-Creating_flood_maps.js:205 | The threshold is 0.7·wet + 0.3·dry and lies between wet and dry (strictly when wet < dry) |
| FloodMaps.ThresholdExample | GoogleEarthEngine_code/Script_2-Creating_flood_maps.js:10 | dry = 100 and wet = 50 give 65 |
| FloodMaps.Classify | GoogleEarthEngine_code/Script_2-Creating_flood_maps.js:192-207 | Classification fails iff a reference median is missing; otherwise a pixel is 1 iff its value is strictly below the threshold, masked iff masked in the composite, and 0 or 1; only startDate and endDate are carried over, unchanged |
| FloodMaps.ClassifyMonotone | GoogleEarthEngine_code/Script_2-Creating_flood_maps.js:207 | A valid pixel no brighter than a flooded pixel of the same composite is flooded |
| FloodMaps.ClassifyExample | GoogleEarthEngine_code/Script_2-Creating_flood_maps.js:10-11 | With dry = 100 and wet = 50, values 60, 70 and 65 classify as 1, 0 and 0 (equality is not flooded), and a masked pixel stays masked |
| FloodMaps.ClassifyAll | GoogleEarthEngine_code/Script_2-Creating_flood_maps.js:210 | Classifying the collection succeeds iff every composite has both medians; then it returns one binary map per composite, in order, with that composite's tags |
| FloodMaps.FirstWithStart | GoogleEarthEngine_code/Script_2-Creating_flood_maps.js:240 | Returns a map with the requested start tag iff one exists, and it is the earliest such map |
| FloodMaps.SumMaps | GoogleEarthEngine_code/Script_2-Creating_flood_maps.js:276 | The sum raster covers the grid, and a pixel is valid iff some map is valid there |
| FloodMaps.SumCountsFloods | GoogleEarthEngine_code/Script_2-Creating_flood_maps.js:276 | Over binary maps, the per-pixel sum equals the number of maps flooded at that pixel |
| FloodMaps.SumIsFloodCount | GoogleEarthEngine_code/Script_2-Creating_flood_maps.js:276 | For up to 32767 binary maps (so the configured 30 fit), the int16 sum at a valid pixel is the number of flooded maps and lies in [0, N] |
| FloodMaps.SumMapsPermutation | GoogleEarthEngine_code/Script_2-Creating_flood_maps.js:276 | The sum raster is the same under any reordering of the maps |
| Seqs.SumByPermutation | GoogleEarthEngine_code/Script_2-Creating_flood_maps.js:276 | A sum over a sequence depends only on its multiset of terms |
| FloodMaps.RowsOf | GoogleEarthEngine_code/Script_2-Creating_flood_maps.js:253-260 | The rows of one map are one per region, each with that region, the map's startDate as year, and the area for that region |
| FloodMaps.AreaTable | GoogleEarthEngine_code/Script_2-Creating_flood_maps.js:250-261 | The flattened table has one row per map and region |
| FloodMaps.AreaTableRow | GoogleEarthEngine_code/Script_2-Creating_flood_maps.js:250-261 | Row j·R + k belongs to map j and region k and carries map j's startDate as its year |
| FloodMaps.AreaTableSingleRegion | GoogleEarthEngine_code/Script_2-Creating_flood_maps.js:250-261 | With the single delta region the table has one row per map, in map order, with year = that map's startDate |

## Left out

- Geometry literals (the delta outline, the wet/dry reference regions, the east/west probe polygons), `Map.centerObject`, `Map.addLayer`, `print`, the visualisation parameters and the commented-out export and batch code: configuration, display and output.
- Loading, `filterBounds` and merging of the Landsat collections: these are archive reads. `select('B7')` is modelled (`Rasters.SelectBand`), but the merge is not.
- The linear-fit regression, the square kernel, `reduceNeighborhood`, the `median()` reducers, `reduceRegion`/`reduceRegions`, and `clip`: hosted operators whose code is not visible. The fit from a scene and its neighbourhood to the fill raster (`GapFill.GapFillIn` chooses the neighbourhood), the per-window median, the probe sums, the dry/wet medians and the per-region areas enter the model as opaque parameters.
- How the footprint of a scene is derived from its geometry: the footprint flags are a parameter of `GapFill.GapFill`.
- `ee.Image.pixelArea()`, the km² conversion, and the values of the area table: floating-point geodesic numerics. Only the table's shape and its year tags are modelled.
- The variance raster: floating-point statistics.
- Floating-point rounding in the threshold: `wet`, `dry` and the threshold are Dafny `real`s.
- Computing `n_months` with `difference(...).round()`: `n_months` is a parameter. The configured value is 360.
- Fractional mask values: masks are modelled as valid/masked only.
- Time zones: instants are UTC calendar days plus milliseconds since midnight.
- `Calendar.ParseDate` reads only the exact `YYYY-MM-dd` form used in the scripts, not every ISO form `ee.Date` accepts.

=== FILE: calendar.dfy ===
/** Gregorian calendar dates, month arithmetic and the `YYYY-MM-dd` text
    form used to tag composites and flood maps. */
module Calendar {
  import opened Wrappers

  datatype Date = Date(year: int, month: int, day: int)

  /** A point in time: a calendar day (UTC) plus milliseconds since midnight. */
  datatype Instant = Instant(date: Date, millis: int)

  const MillisPerDay: int := 86400000

  predicate IsLeapYear(y: int) {
    y % 4 == 0 && (y % 100 != 0 || y % 400 == 0)
  }

  function DaysInMonth(y: int, m: int): (n: int)
    requires 1 <= m <= 12
    ensures 28 <= n <= 31
  {
    if m == 2 then (if IsLeapYear(y) then 29 else 28)
    else if m == 4 || m == 6 || m == 9 || m == 11 then 30
    else 31
  }

  predicate ValidDate(d: Date) {
    1 <= d.month <= 12 && 1 <= d.day <= DaysInMonth(d.year, d.month)
  }

  predicate ValidInstant(t: Instant) {
    ValidDate(t.date) && 0 <= t.millis < MillisPerDay
  }

  /** Months elapsed since January of year 0. */
  function MonthIndex(d: Date): int {
    d.year * 12 + d.month - 1
  }

  /** Strict chronological order of dates. */
  predicate Before(a: Date, b: Date) {
    || a.year < b.year
    || (a.year == b.year && a.month < b.month)
    || (a.year == b.year && a.month == b.month && a.day < b.day)
  }

  /** Strict chronological order of instants. */
  predicate Precedes(a: Instant, b: Instant) {
    Before(a.date, b.date) || (a.date == b.date && a.millis < b.millis)
  }

  /** `start <= t < end`: the half-open date range of a date filter. */
  predicate InRange(t: Instant, start: Instant, end: Instant) {
    !Precedes(t, start) && Precedes(t, end)
  }

  function Midnight(d: Date): Instant {
    Instant(d, 0)
  }

  /** Moves a date by `n` calendar months (negative moves back). The day
      of the month is kept, and clamped to the last day of a shorter
      target month. */
  function AddMonths(d: Date, n: int): (r: Date)
    requires ValidDate(d)
    ensures ValidDate(r)
    ensures MonthIndex(r) == MonthIndex(d) + n
    ensures d.day <= DaysInMonth(r.year, r.month) ==> r.day == d.day
    ensures d.day > DaysInMonth(r.year, r.month) ==> r.day == DaysInMonth(r.year, r.month)
  {
    var mi := MonthIndex(d) + n;
    var y := mi / 12;
    var m := mi % 12 + 1;
    var last := DaysInMonth(y, m);
    Date(y, m, if d.day <= last then d.day else last)
  }

  /** Advances an instant by `n` years, keeping the time of day. */
  function AdvanceYears(t: Instant, n: int): (r: Instant)
    requires ValidInstant(t)
    ensures ValidInstant(r)
    ensures MonthIndex(r.date) == MonthIndex(t.date) + 12 * n
    ensures r.date.year == t.date.year + n && r.date.month == t.date.month
    // the day is kept when it exists in the target year, else clamped (Feb 29)
    ensures t.date.day <= DaysInMonth(r.date.year, r.date.month) ==> r.date.day == t.date.day
    ensures t.date.day > DaysInMonth(r.date.year, r.date.month) ==> r.date.day == DaysInMonth(r.date.year, r.date.month)
    ensures r.millis == t.millis
  {
    Instant(AddMonths(t.date, 12 * n), t.millis)
  }

  /** An earlier month index means an earlier date, whatever the days. */
  lemma MonthIndexOrder(a: Date, b: Date)
    requires ValidDate(a) && ValidDate(b)
    requires MonthIndex(a) < MonthIndex(b)
    ensures Before(a, b)
  {
  }

  /** Every instant lies in the two-year window [t - 1 year, t + 1 year). */
  lemma InOwnYearWindow(t: Instant)
    requires ValidInstant(t)
    ensures InRange(t, AdvanceYears(t, -1), AdvanceYears(t, 1))
  {
    MonthIndexOrder(AdvanceYears(t, -1).date, t.date);
    MonthIndexOrder(t.date, AdvanceYears(t, 1).date);
  }

  // ---- Text form "YYYY-MM-dd" -------------------------------------------

  function DigitChar(d: int): char
    requires 0 <= d < 10
  {
    ('0' as int + d) as char
  }

  predicate IsDigit(c: char) {
    '0' <= c <= '9'
  }

  function DigitValue(c: char): int {
    c as int - '0' as int
  }

  function Pow10(k: nat): (p: nat)
    ensures p >= 1
  {
    if k == 0 then 1 else 10 * Pow10(k - 1)
  }

  /** Decimal digits of `n`, left-padded with zeros to at least `width`. */
  function Digits(n: nat, width: nat): string
    decreases n + width
  {
    if n < 10 && width <= 1 then [DigitChar(n)]
    else Digits(n / 10, if width > 0 then width - 1 else 0) + [DigitChar(n % 10)]
  }

  /** The value of a string of decimal digits (0 for the empty string). */
  function ParseNat(s: string): int
  {
    if |s| == 0 then 0 else 10 * ParseNat(s[..|s| - 1]) + DigitValue(s[|s| - 1])
  }

  predicate AllDigits(s: string) {
    forall i :: 0 <= i < |s| ==> IsDigit(s[i])
  }

  /** Reading back the padded digits of `n` gives `n`, every character is a
      digit, and a number below 10^width takes exactly `width` characters. */
  lemma {:induction false} DigitsRoundTrip(n: nat, width: nat)
    ensures AllDigits(Digits(n, width))
    ensures ParseNat(Digits(n, width)) == n
    ensures 1 <= width && n < Pow10(width) ==> |Digits(n, width)| == width
    decreases n + width
  {
    var s := Digits(n, width);
    if n < 10 && width <= 1 {
      assert s[..0] == [];
    } else {
      var w' := if width > 0 then width - 1 else 0;
      DigitsRoundTrip(n / 10, w');
      var prefix := Digits(n / 10, w');
      assert s[..|s| - 1] == prefix;
      if 1 <= width && n < Pow10(width) {
        if width == 1 {
          assert false;
        }
      }
    }
  }

  /** The four characters of a number below 10000, zero-padded. */
  lemma DigitsOfFourDigit(n: nat)
    requires n <= 9999
    ensures Digits(n, 4) == [DigitChar(n / 1000), DigitChar(n / 100 % 10), DigitChar(n / 10 % 10), DigitChar(n % 10)]
  {
    assert n / 10 / 10 == n / 100 && n / 100 / 10 == n / 1000;
    assert Digits(n / 1000, 1) == [DigitChar(n / 1000)];
    assert Digits(n / 100, 2) == Digits(n / 1000, 1) + [DigitChar(n / 100 % 10)];
    assert Digits(n / 10, 3) == Digits(n / 100, 2) + [DigitChar(n / 10 % 10)];
    assert Digits(n, 4) == Digits(n / 10, 3) + [DigitChar(n % 10)];
  }

  /** The two characters of a number below 100. */
  lemma DigitsOfTwoDigit(n: nat)
    requires n <= 99
    ensures Digits(n, 2) == [DigitChar(n / 10), DigitChar(n % 10)]
  {
    assert Digits(n / 10, 1) == [DigitChar(n / 10)];
  }

  /** Year of era, as printed by the `YYYY` pattern (year 0 is 1 BCE). */
  function YearOfEra(y: int): nat {
    if y >= 1 then y else 1 - y
  }

  /** Formats a date with the pattern `YYYY-MM-dd`: a year of at least
      four digits, a two-digit month and a two-digit day. */
  function Format(d: Date): (s: string)
    requires ValidDate(d)
    ensures 1 <= d.year <= 9999 ==> |s| == 10
  {
    DigitsRoundTrip(YearOfEra(d.year), 4);
    DigitsRoundTrip(d.month, 2);
    DigitsRoundTrip(d.day, 2);
    Digits(YearOfEra(d.year), 4) + "-" + Digits(d.month, 2) + "-" + Digits(d.day, 2)
  }

  /** Reads an ISO calendar date `YYYY-MM-dd`; `None` when the text is not
      of that shape or does not name a real day. */
  function ParseDate(s: string): (r: Option<Date>)
    ensures r.Some? ==> ValidDate(r.value)
  {
    if |s| == 10 && s[4] == '-' && s[7] == '-'
       && AllDigits(s[..4]) && AllDigits(s[5..7]) && AllDigits(s[8..])
    then
      var d := Date(ParseNat(s[..4]), ParseNat(s[5..7]), ParseNat(s[8..]));
      if ValidDate(d) then Some(d) else None
    else None
  }

  /** The tag of a date of years 1 to 9999, character by character. */
  lemma FormatDigits(d: Date)
    requires ValidDate(d) && 1 <= d.year <= 9999
    ensures Format(d) == [DigitChar(d.year / 1000), DigitChar(d.year / 100 % 10),
                          DigitChar(d.year / 10 % 10), DigitChar(d.year % 10), '-',
                          DigitChar(d.month / 10), DigitChar(d.month % 10), '-',
                          DigitChar(d.day / 10), DigitChar(d.day % 10)]
  {
    DigitsOfFourDigit(d.year);
    DigitsOfTwoDigit(d.month);
    DigitsOfTwoDigit(d.day);
  }

  /** Parsing the formatted text gives the date back (years 1 to 9999). */
  lemma FormatParseRoundTrip(d: Date)
    requires ValidDate(d) && 1 <= d.year <= 9999
    ensures ParseDate(Format(d)) == Some(d)
  {
    var y, m, dd := Digits(d.year, 4), Digits(d.month, 2), Digits(d.day, 2);
    DigitsRoundTrip(d.year, 4);
    DigitsRoundTrip(d.month, 2);
    DigitsRoundTrip(d.day, 2);
    var s := Format(d);
    var ym := y + "-" + m;
    assert |y| == 4 && |m| == 2 && |ym| == 7;
    assert s == ym + "-" + dd;
    assert s[..7] == ym && ym[5..] == m;
    assert s[..4] == y;
    assert s[5..7] == m;
    assert s[8..] == dd;
  }

  /** Two dates of years 1 to 9999 with the same tag are the same date. */
  lemma FormatInjective(a: Date, b: Date)
    requires ValidDate(a) && 1 <= a.year <= 9999
    requires ValidDate(b) && 1 <= b.year <= 9999
    ensures Format(a) == Format(b) <==> a == b
  {
    FormatParseRoundTrip(a);
    FormatParseRoundTrip(b);
  }
}

=== FILE: cloud_mask.dfy ===
/** Cloud and cloud-shadow masking of Landsat surface-reflectance scenes
    from the 16-bit `pixel_qa` quality word. */
module CloudMask {
  import opened Rasters

  /** Bit 3 of `pixel_qa`: cloud shadow. */
  const CloudShadowBitMask: bv16 := 1 << 3
  /** Bit 5 of `pixel_qa`: cloud. */
  const CloudsBitMask: bv16 := 1 << 5
  /** Bit 7 of `pixel_qa`: upper bit of the two-bit cloud-confidence field. */
  const CloudConfidenceHighBitMask: bv16 := 1 << 7

  /** Bit `k` of a quality word, read by shifting. */
  function Bit(q: bv16, k: nat): bool
    requires k < 16
  {
    (q >> k) & 1 == 1
  }

  /** Landsat 8 rule: clear iff neither the cloud-shadow nor the cloud bit
      is set. */
  predicate ClearL8(q: bv16)
    ensures ClearL8(q) <==> !Bit(q, 3) && !Bit(q, 5)
  {
    q & CloudShadowBitMask == 0 && q & CloudsBitMask == 0
  }

  /** Landsat 5/7 rule: cloudy iff the shadow bit is set, or the cloud bit
      and the high cloud-confidence bit are both set. */
  predicate CloudyL57(q: bv16)
    ensures CloudyL57(q) <==> Bit(q, 3) || (Bit(q, 5) && Bit(q, 7))
  {
    (q & CloudsBitMask != 0 && q & CloudConfidenceHighBitMask != 0) || q & CloudShadowBitMask != 0
  }

  /** Only bits 3 and 5 influence the Landsat 8 rule. */
  lemma ClearL8IgnoresOtherBits(q: bv16, k: nat)
    requires k < 16 && k != 3 && k != 5
    ensures ClearL8(q ^ (1 << k)) == ClearL8(q)
  {
  }

  /** Only bits 3, 5 and 7 influence the Landsat 5/7 rule. */
  lemma CloudyL57IgnoresOtherBits(q: bv16, k: nat)
    requires k < 16 && k != 3 && k != 5 && k != 7
    ensures CloudyL57(q ^ (1 << k)) == CloudyL57(q)
  {
  }

  /** The cloud bit alone, or the confidence bit alone, is not cloud for
      Landsat 5/7; both together are, and so is the shadow bit. */
  lemma CloudyL57Examples()
    ensures !CloudyL57(CloudsBitMask)
    ensures !CloudyL57(CloudConfidenceHighBitMask)
    ensures CloudyL57(CloudsBitMask | CloudConfidenceHighBitMask)
    ensures CloudyL57(CloudShadowBitMask)
    ensures !CloudyL57(0)
  {
  }

  /** A pixel survives the Landsat 8 mask iff its quality word is valid
      and clear. A masked quality word masks the pixel. */
  predicate KeepL8(p: LandsatPixel) {
    p.qa.Some? && ClearL8(p.qa.value)
  }

  predicate AllBandsValid(p: LandsatPixel) {
    forall b :: 0 <= b < |p.bands| ==> p.bands[b].Some?
  }

  /** A pixel survives the Landsat 5/7 masks iff its quality word is valid
      and not cloudy, and no band is masked (the band masks are combined
      by their minimum). */
  predicate KeepL57(p: LandsatPixel) {
    p.qa.Some? && !CloudyL57(p.qa.value) && AllBandsValid(p)
  }

  /** Cloud masking of a Landsat 8 scene. */
  function CloudMaskL8(s: Scene): (r: Scene)
    ensures r.time == s.time
    ensures MaskedFrom(r.pixels, s.pixels)
    ensures forall i :: 0 <= i < |s.pixels| ==>
      && (s.pixels[i].qa.Some? && ClearL8(s.pixels[i].qa.value) ==> r.pixels[i] == s.pixels[i])
      && (s.pixels[i].qa.None? || !ClearL8(s.pixels[i].qa.value) ==> r.pixels[i] == Blank(s.pixels[i]))
  {
    Scene(s.time, UpdateMask(s.pixels, KeepL8))
  }

  /** The first Landsat 5/7 mask: the quality word is valid and not cloudy. */
  predicate NotCloudyL57(p: LandsatPixel) {
    p.qa.Some? && !CloudyL57(p.qa.value)
  }

  /** Cloud masking of a Landsat 5 or 7 scene: the cloud mask, then the
      minimum over bands of the scene's own band masks. */
  function CloudMaskL57(s: Scene): (r: Scene)
    ensures r.time == s.time
    ensures MaskedFrom(r.pixels, s.pixels)
    ensures forall i :: 0 <= i < |s.pixels| ==>
      (KeepL57(s.pixels[i]) ==> r.pixels[i] == s.pixels[i])
    ensures forall i :: 0 <= i < |s.pixels| ==>
      (s.pixels[i].qa.None? || CloudyL57(s.pixels[i].qa.value) ==> r.pixels[i] == Blank(s.pixels[i]))
    ensures forall i, b :: 0 <= i < |s.pixels| && 0 <= b < |s.pixels[i].bands| && s.pixels[i].bands[b].None? ==>
      r.pixels[i] == Blank(s.pixels[i])
  {
    var first := UpdateMask(s.pixels, NotCloudyL57);
    var second := UpdateMask(first, AllBandsValid);
    assert forall i :: 0 <= i < |s.pixels| ==>
      second[i] == if KeepL57(s.pixels[i]) then s.pixels[i] else Blank(s.pixels[i]);
    MaskedFromTransitive(second, first, s.pixels);
    Scene(s.time, second)
  }

  /** After the Landsat 8 mask, a selected band value is valid only where
      the quality word was valid and clear, and it is the original value. */
  lemma SelectedBandAfterL8(s: Scene, b: nat, i: nat)
    requires forall j :: 0 <= j < |s.pixels| ==> b < |s.pixels[j].bands|
    requires i < |s.pixels|
    ensures var r := SelectBand(CloudMaskL8(s), b);
      r.values[i].Some? <==> s.pixels[i].qa.Some? && ClearL8(s.pixels[i].qa.value) && s.pixels[i].bands[b].Some?
    ensures var r := SelectBand(CloudMaskL8(s), b);
      r.values[i].Some? ==> r.values[i] == s.pixels[i].bands[b]
  {
  }

  /** After the Landsat 5/7 masks, a selected band value is valid only
      where the quality word was valid and not cloudy and every band of
      the pixel was valid, and it is the original value. */
  lemma SelectedBandAfterL57(s: Scene, b: nat, i: nat)
    requires forall j :: 0 <= j < |s.pixels| ==> b < |s.pixels[j].bands|
    requires i < |s.pixels|
    ensures var r := SelectBand(CloudMaskL57(s), b);
      r.values[i].Some? <==> KeepL57(s.pixels[i])
    ensures var r := SelectBand(CloudMaskL57(s), b);
      r.values[i].Some? ==> r.values[i] == s.pixels[i].bands[b]
  {
  }
}

=== FILE: composites.dfy ===
/** Annual seasonal composites: the month offsets, the three-month windows
    they open, the composite records tagged with the window dates, and the
    filters that discard defective composites. */
module Composites {
  import opened Wrappers
  import opened Calendar
  import opened Rasters
  import Seqs

  /** First offset, stride and length (in months) of the seasonal windows:
      July to September of every year when counting from January 1st. */
  const FirstOffset: int := 6
  const Stride: int := 12
  const SeasonMonths: int := 3

  /** The offsets 6, 18, 30, ... up to and including `nMonths` (a numeric
      list sequence with step 12; empty when `nMonths` < 6). */
  function Offsets(nMonths: int): (r: seq<int>)
    ensures forall i :: 0 <= i < |r| ==> r[i] == FirstOffset + Stride * i && r[i] <= nMonths
    ensures FirstOffset + Stride * |r| > nMonths
  {
    var count := if nMonths < FirstOffset then 0 else (nMonths - FirstOffset) / Stride + 1;
    seq(count, i => FirstOffset + Stride * i)
  }

  /** Offsets are exactly the numbers 6 + 12i that do not exceed `nMonths`. */
  lemma OffsetsExact(nMonths: int, k: int)
    ensures k in Offsets(nMonths) <==> k <= nMonths && k >= FirstOffset && (k - FirstOffset) % Stride == 0
  {
    var r := Offsets(nMonths);
    if k <= nMonths && k >= FirstOffset && (k - FirstOffset) % Stride == 0 {
      var i := (k - FirstOffset) / Stride;
      assert FirstOffset + Stride * i == k;
      assert r[i] == k;
    }
  }

  /** A seasonal window [start, end). */
  datatype Window = Window(start: Date, end: Date)

  /** The window opened `k` months after `start`; it closes three months
      after it opens. */
  function WindowAt(start: Date, k: int): (w: Window)
    requires ValidDate(start)
    ensures ValidDate(w.start) && ValidDate(w.end)
    ensures MonthIndex(w.start) == MonthIndex(start) + k
    ensures MonthIndex(w.end) == MonthIndex(w.start) + SeasonMonths
    ensures start.day <= 28 ==> w.start.day == start.day && w.end.day == start.day
    ensures Before(w.start, w.end)
  {
    var d1 := AddMonths(start, k);
    var w := Window(d1, AddMonths(d1, SeasonMonths));
    MonthIndexOrder(w.start, w.end);
    w
  }

  /** One window per offset, in order. Each is three months long, each
      closes before the next one opens, so no two windows overlap. */
  function Windows(start: Date, nMonths: int): (ws: seq<Window>)
    requires ValidDate(start)
    ensures |ws| == |Offsets(nMonths)|
    ensures forall i :: 0 <= i < |ws| ==>
      && ValidDate(ws[i].start) && ValidDate(ws[i].end)
      && MonthIndex(ws[i].start) == MonthIndex(start) + FirstOffset + Stride * i
      && MonthIndex(ws[i].end) == MonthIndex(ws[i].start) + SeasonMonths
      && Before(ws[i].start, ws[i].end)
      && (start.day <= 28 ==> ws[i].start.day == start.day && ws[i].end.day == start.day)
    ensures forall i :: 0 <= i < |ws| - 1 ==> Before(ws[i].end, ws[i + 1].start)
  {
    var offs := Offsets(nMonths);
    var ws := seq(|offs|, i requires 0 <= i < |offs| => WindowAt(start, offs[i]));
    assert forall i :: 0 <= i < |ws| - 1 ==> Before(ws[i].end, ws[i + 1].start) by {
      forall i | 0 <= i < |ws| - 1 {
        MonthIndexOrder(ws[i].end, ws[i + 1].start);
      }
    }
    ws
  }

  /** Windows never overlap: any instant lies in at most one of them. */
  lemma WindowsDisjoint(start: Date, nMonths: int, i: int, j: int, t: Instant)
    requires ValidDate(start)
    requires 0 <= i < j < |Windows(start, nMonths)|
    ensures var ws := Windows(start, nMonths);
      !(InRange(t, Midnight(ws[i].start), Midnight(ws[i].end))
        && InRange(t, Midnight(ws[j].start), Midnight(ws[j].end)))
  {
  }

  /** A composite: the uint16 median of the scenes of one window, tagged
      with the window's start and end dates and its number of bands. */
  datatype Composite = Composite(startDate: string, endDate: string, numBands: nat, pixels: Raster<int>)

  /** Builds the composite of window `w`. The per-pixel median reducer is
      an opaque parameter. A window without scenes gives a composite with
      no band and no pixel. */
  function Compose(w: Window, scenes: seq<BandScene>, median: seq<BandScene> -> Raster<real>): (c: Composite)
    requires ValidDate(w.start) && ValidDate(w.end)
    ensures c.startDate == Format(w.start) && c.endDate == Format(w.end)
    ensures c.numBands == 0 <==> forall s :: s in scenes ==> !InRange(s.time, Midnight(w.start), Midnight(w.end))
    ensures c.numBands <= 1
    ensures forall i :: 0 <= i < |c.pixels| && c.pixels[i].Some? ==> 0 <= c.pixels[i].value <= Uint16Max
    ensures c.numBands == 0 ==> c.pixels == []
    // the median is taken over exactly the scenes of the window
    ensures c.numBands == 1 ==> c.pixels == CastUint16(median(FilterDate(scenes, Midnight(w.start), Midnight(w.end))))
  {
    var inWindow := FilterDate(scenes, Midnight(w.start), Midnight(w.end));
    if |inWindow| == 0 then
      Composite(Format(w.start), Format(w.end), 0, [])
    else
      assert inWindow[0] in inWindow;
      Composite(Format(w.start), Format(w.end), 1, CastUint16(median(inWindow)))
  }

  /** The composites of all windows, in window order. */
  function AnnualComposites(start: Date, nMonths: int, scenes: seq<BandScene>,
                            median: seq<BandScene> -> Raster<real>): (cs: seq<Composite>)
    requires ValidDate(start)
    ensures |cs| == |Windows(start, nMonths)|
    ensures forall i :: 0 <= i < |cs| ==>
      && cs[i] == Compose(Windows(start, nMonths)[i], scenes, median)
      && cs[i].startDate == Format(Windows(start, nMonths)[i].start)
      && cs[i].endDate == Format(Windows(start, nMonths)[i].end)
  {
    var ws := Windows(start, nMonths);
    seq(|ws|, i requires 0 <= i < |ws| => Compose(ws[i], scenes, median))
  }

  // ---- Filters -----------------------------------------------------------

  /** Drops the composites whose probe-region sum is exactly zero (a
      Landsat scene is missing under the probe). The area-weighted sum is
      computed elsewhere and given as `probeSum`; it is `None` when the
      composite has no band to sum, in which case no `area` property is
      set. A missing property is not equal to zero, so such a composite is
      kept. */
  function ProbeFilter(cs: seq<Composite>, probeSum: Composite -> Option<real>): (r: seq<Composite>)
    ensures Seqs.IsSubsequence(r, cs)
    ensures forall i :: 0 <= i < |r| ==> probeSum(r[i]) != Some(0.0)
    ensures forall c :: c in r <==> c in cs && probeSum(c) != Some(0.0)
    ensures forall c :: multiset(r)[c] == if probeSum(c) != Some(0.0) then multiset(cs)[c] else 0
  {
    var keep := (c: Composite) => probeSum(c) != Some(0.0);
    forall c
      ensures (c in Seqs.Filter(cs, keep) <==> c in cs && keep(c))
      ensures multiset(Seqs.Filter(cs, keep))[c] == if keep(c) then multiset(cs)[c] else 0
    {
      Seqs.FilterMembership(cs, keep, c);
      Seqs.FilterCounts(cs, keep, c);
    }
    Seqs.Filter(cs, keep)
  }

  /** The probe sum of a composite as the pipeline sees it: a composite
      without band has nothing to sum and gets no `area` property; any
      other composite gets the area-weighted sum `sum(c)` computed
      elsewhere. */
  function ProbeValue(sum: Composite -> real): (p: Composite -> Option<real>)
    ensures forall c: Composite :: p(c).None? <==> c.numBands == 0
    ensures forall c: Composite :: c.numBands > 0 ==> p(c) == Some(sum(c))
  {
    (c: Composite) => if c.numBands == 0 then None else Some(sum(c))
  }

  /** The window start of the composite excluded after visual inspection. */
  const ExcludedStartDate: string := "1993-07-01"

  /** Drops the composites whose start tag is the excluded date. */
  function ManualFilter(cs: seq<Composite>): (r: seq<Composite>)
    ensures Seqs.IsSubsequence(r, cs)
    ensures forall c :: c in r <==> c in cs && c.startDate != ExcludedStartDate
    ensures forall c :: multiset(r)[c] == if c.startDate != ExcludedStartDate then multiset(cs)[c] else 0
  {
    var keep := (c: Composite) => c.startDate != ExcludedStartDate;
    forall c
      ensures (c in Seqs.Filter(cs, keep) <==> c in cs && keep(c))
      ensures multiset(Seqs.Filter(cs, keep))[c] == if keep(c) then multiset(cs)[c] else 0
    {
      Seqs.FilterMembership(cs, keep, c);
      Seqs.FilterCounts(cs, keep, c);
    }
    Seqs.Filter(cs, keep)
  }

  /** The composite passes the west probe, the east probe and the manual
      inspection. */
  predicate Accepted(c: Composite, westSum: Composite -> Option<real>, eastSum: Composite -> Option<real>) {
    westSum(c) != Some(0.0) && eastSum(c) != Some(0.0) && c.startDate != ExcludedStartDate
  }

  /** The west-probe filter, the east-probe filter and the manual filter,
      in the order the composites go through them: the accepted
      composites, in their original order, with every copy kept. */
  function FilterComposites(cs: seq<Composite>, westSum: Composite -> Option<real>,
                            eastSum: Composite -> Option<real>): (r: seq<Composite>)
    ensures Seqs.IsSubsequence(r, cs)
    ensures forall c :: c in r <==> c in cs && Accepted(c, westSum, eastSum)
    ensures forall c :: multiset(r)[c] == if Accepted(c, westSum, eastSum) then multiset(cs)[c] else 0
  {
    var west := ProbeFilter(cs, westSum);
    var east := ProbeFilter(west, eastSum);
    var r := ManualFilter(east);
    Seqs.SubsequenceTransitive(east, west, cs);
    Seqs.SubsequenceTransitive(r, east, cs);
    r
  }

  /** A composite built from an empty window passes both probe filters,
      so only the manual filter can remove it. */
  lemma EmptyCompositesPassProbes(cs: seq<Composite>, west: Composite -> real, east: Composite -> real, c: Composite)
    requires c in cs && c.numBands == 0 && c.startDate != ExcludedStartDate
    ensures c in FilterComposites(cs, ProbeValue(west), ProbeValue(east))
    ensures multiset(FilterComposites(cs, ProbeValue(west), ProbeValue(east)))[c] == multiset(cs)[c]
  {
  }

  /** A probe filter is a no-op when every probe sum is nonzero. */
  lemma ProbeFilterNoOp(cs: seq<Composite>, probeSum: Composite -> Option<real>)
    requires forall i :: 0 <= i < |cs| ==> probeSum(cs[i]) != Some(0.0)
    ensures ProbeFilter(cs, probeSum) == cs
  {
    Seqs.FilterKeepsAll(cs, (c: Composite) => probeSum(c) != Some(0.0));
  }

  /** The order of the probe filters does not matter. */
  lemma ProbeFiltersCommute(cs: seq<Composite>, westSum: Composite -> Option<real>, eastSum: Composite -> Option<real>)
    ensures ProbeFilter(ProbeFilter(cs, westSum), eastSum) == ProbeFilter(ProbeFilter(cs, eastSum), westSum)
  {
    Seqs.FilterCommutes(cs, (c: Composite) => westSum(c) != Some(0.0), (c: Composite) => eastSum(c) != Some(0.0));
  }

  // ---- The configured date range -----------------------------------------

  /** The configured range starts on 1990-01-01 and spans 360 months. */
  const ConfiguredStart: Date := Date(1990, 1, 1)
  const ConfiguredMonths: int := 360

  lemma ConfiguredStartParses()
    ensures ParseDate("1990-01-01") == Some(ConfiguredStart)
  {
    FormatParseRoundTrip(ConfiguredStart);
    FormatDigits(ConfiguredStart);
  }

  /** The configured range gives 30 windows, the i-th from July 1st to
      October 1st of year 1990 + i. */
  lemma ConfiguredWindows()
    ensures |Windows(ConfiguredStart, ConfiguredMonths)| == 30
    ensures forall i :: 0 <= i < 30 ==>
      Windows(ConfiguredStart, ConfiguredMonths)[i] == Window(Date(1990 + i, 7, 1), Date(1990 + i, 10, 1))
  {
    var ws := Windows(ConfiguredStart, ConfiguredMonths);
    assert |Offsets(ConfiguredMonths)| == 30;
    forall i | 0 <= i < 30
      ensures ws[i] == Window(Date(1990 + i, 7, 1), Date(1990 + i, 10, 1))
    {
      DateOfMonthIndex(ws[i].start, Date(1990 + i, 7, 1));
      DateOfMonthIndex(ws[i].end, Date(1990 + i, 10, 1));
    }
  }

  /** The i-th configured composite is tagged with July 1st and October
      1st of year 1990 + i. */
  lemma ConfiguredCompositeTags(scenes: seq<BandScene>, median: seq<BandScene> -> Raster<real>)
    ensures var cs := AnnualComposites(ConfiguredStart, ConfiguredMonths, scenes, median);
      && |cs| == 30
      && forall i :: 0 <= i < 30 ==>
           cs[i].startDate == Format(Date(1990 + i, 7, 1)) && cs[i].endDate == Format(Date(1990 + i, 10, 1))
  {
    ConfiguredWindows();
  }

  /** A date is fixed by its month index and its day. */
  lemma DateOfMonthIndex(a: Date, b: Date)
    requires ValidDate(a) && ValidDate(b)
    requires MonthIndex(a) == MonthIndex(b) && a.day == b.day
    ensures a == b
  {
  }

  /** The first and last configured composites carry the tags
      1990-07-01 / 1990-10-01 and 2019-07-01 / 2019-10-01. */
  lemma ConfiguredTags(scenes: seq<BandScene>, median: seq<BandScene> -> Raster<real>)
    ensures var cs := AnnualComposites(ConfiguredStart, ConfiguredMonths, scenes, median);
      && |cs| == 30
      && cs[0].startDate == "1990-07-01" && cs[0].endDate == "1990-10-01"
      && cs[29].startDate == "2019-07-01" && cs[29].endDate == "2019-10-01"
  {
    ConfiguredCompositeTags(scenes, median);
    FirstAndLastTags(AnnualComposites(ConfiguredStart, ConfiguredMonths, scenes, median));
  }

  lemma FirstAndLastTags(cs: seq<Composite>)
    requires |cs| == 30
    requires forall i :: 0 <= i < 30 ==>
      cs[i].startDate == Format(Date(1990 + i, 7, 1)) && cs[i].endDate == Format(Date(1990 + i, 10, 1))
    ensures cs[0].startDate == "1990-07-01" && cs[0].endDate == "1990-10-01"
    ensures cs[29].startDate == "2019-07-01" && cs[29].endDate == "2019-10-01"
  {
    FormatDigits(Date(1990, 7, 1));
    FormatDigits(Date(1990, 10, 1));
    FormatDigits(Date(2019, 7, 1));
    FormatDigits(Date(2019, 10, 1));
  }

  /** On the configured composites the manual filter removes the fourth
      composite (1993) and nothing else. */
  lemma ConfiguredManualFilter(scenes: seq<BandScene>, median: seq<BandScene> -> Raster<real>)
    ensures var cs := AnnualComposites(ConfiguredStart, ConfiguredMonths, scenes, median);
      |cs| == 30 && ManualFilter(cs) == cs[..3] + cs[4..]
  {
    ConfiguredCompositeTags(scenes, median);
    ManualFilterOnTags(AnnualComposites(ConfiguredStart, ConfiguredMonths, scenes, median));
  }

  lemma ManualFilterOnTags(cs: seq<Composite>)
    requires |cs| == 30
    requires forall i :: 0 <= i < 30 ==> cs[i].startDate == Format(Date(1990 + i, 7, 1))
    ensures ManualFilter(cs) == cs[..3] + cs[4..]
  {
    var keep := (c: Composite) => c.startDate != ExcludedStartDate;
    FormatDigits(Date(1993, 7, 1));
    forall i | 0 <= i < 30
      ensures keep(cs[i]) <==> i != 3
    {
      FormatInjective(Date(1990 + i, 7, 1), Date(1993, 7, 1));
    }
    Seqs.FilterRemovesOnly(cs, keep, 3);
  }
}

=== FILE: flood_maps.dfy ===
/** Flood classification of composites with an adaptive SWIR threshold,
    and the interannual summaries of the flood maps. */
module FloodMaps {
  import opened Wrappers
  import opened Rasters
  import opened Composites
  import Seqs

  /** A binary flood map: 1 = flooded, 0 = not flooded, `None` = masked.
      Of its composite's metadata it keeps the start and end tags only. */
  datatype FloodMap = FloodMap(startDate: string, endDate: string, pixels: Raster<int>)

  /** Fraction of the way from the wet reference value to the dry one at
      which the threshold sits. */
  const DryWeight: real := 0.3

  /** The adaptive threshold wet + 0.3 * (dry - wet): a weighted mean with
      weight 0.7 on the wet value and 0.3 on the dry value, so it lies
      between the two. */
  function Threshold(dry: real, wet: real): (t: real)
    ensures t == 0.7 * wet + 0.3 * dry
    ensures wet <= dry ==> wet <= t <= dry
    ensures dry <= wet ==> dry <= t <= wet
    ensures wet < dry ==> wet < t < dry
  {
    (dry - wet) * DryWeight + wet
  }

  lemma ThresholdExample()
    ensures Threshold(100.0, 50.0) == 65.0
  {
  }

  predicate IsBinary(m: FloodMap) {
    forall i :: 0 <= i < |m.pixels| && m.pixels[i].Some? ==> m.pixels[i].value == 0 || m.pixels[i].value == 1
  }

  /** Classifies a composite against the threshold computed from the
      medians of the dry and wet reference regions. A median that could
      not be computed (no valid sample) makes the whole classification
      fail. A pixel is flooded iff its value is strictly below the
      threshold; a masked pixel stays masked. */
  function Classify(c: Composite, dry: Option<real>, wet: Option<real>): (r: Option<FloodMap>)
    ensures r.Some? <==> dry.Some? && wet.Some?
    ensures r.Some? ==>
      && r.value.startDate == c.startDate
      && r.value.endDate == c.endDate
      && |r.value.pixels| == |c.pixels|
      && IsBinary(r.value)
    ensures r.Some? ==> forall i :: 0 <= i < |c.pixels| ==>
      && (r.value.pixels[i].Some? <==> c.pixels[i].Some?)
      && (r.value.pixels[i] == Some(1) <==>
            c.pixels[i].Some? && (c.pixels[i].value as real) < Threshold(dry.value, wet.value))
  {
    match (dry, wet)
    case (Some(d), Some(w)) =>
      var t := Threshold(d, w);
      Some(FloodMap(c.startDate, c.endDate,
        seq(|c.pixels|, i requires 0 <= i < |c.pixels| =>
          if c.pixels[i].Some? then Some(if (c.pixels[i].value as real) < t then 1 else 0) else None)))
    case _ => None
  }

  /** Classification is monotone: a pixel darker than (or as dark as) a
      flooded pixel of the same composite is flooded too. */
  lemma ClassifyMonotone(c: Composite, dry: real, wet: real, i: int, j: int)
    requires 0 <= i < |c.pixels| && 0 <= j < |c.pixels|
    requires Classify(c, Some(dry), Some(wet)).value.pixels[i] == Some(1)
    requires c.pixels[j].Some? && c.pixels[j].value <= c.pixels[i].value
    ensures Classify(c, Some(dry), Some(wet)).value.pixels[j] == Some(1)
  {
  }

  /** With dry = 100 and wet = 50 the threshold is 65: a pixel of 60 is
      flooded, pixels of 70 and of exactly 65 are not. */
  lemma ClassifyExample()
    ensures var m := Classify(Composite("2013-07-01", "2013-10-01", 1, [Some(60), Some(70), Some(65), None]),
                              Some(100.0), Some(50.0));
      m == Some(FloodMap("2013-07-01", "2013-10-01", [Some(1), Some(0), Some(0), None]))
  {
    ThresholdExample();
    var c := Composite("2013-07-01", "2013-10-01", 1, [Some(60), Some(70), Some(65), None]);
    var r := Classify(c, Some(100.0), Some(50.0));
    var p := r.value.pixels;
    assert |p| == 4;
    assert p[0] == Some(1);
    assert p[1].Some? && p[1] != Some(1);
    assert p[2].Some? && p[2] != Some(1);
    assert p[3] == None;
    assert p == [Some(1), Some(0), Some(0), None];
  }

  /** Classifies every composite, each against the medians of its own
      reference regions. One composite whose threshold cannot be computed
      makes the whole collection fail. */
  function ClassifyAll(cs: seq<Composite>, dryOf: Composite -> Option<real>,
                       wetOf: Composite -> Option<real>): (r: Option<seq<FloodMap>>)
    ensures r.Some? <==> forall k :: 0 <= k < |cs| ==> dryOf(cs[k]).Some? && wetOf(cs[k]).Some?
    ensures r.Some? ==> |r.value| == |cs|
    ensures r.Some? ==> forall k :: 0 <= k < |cs| ==>
      && IsBinary(r.value[k])
      && r.value[k].startDate == cs[k].startDate
      && r.value[k].endDate == cs[k].endDate
      && r.value[k] == Classify(cs[k], dryOf(cs[k]), wetOf(cs[k])).value
  {
    if |cs| == 0 then Some([])
    else
      var head := Classify(cs[0], dryOf(cs[0]), wetOf(cs[0]));
      var rest := ClassifyAll(cs[1..], dryOf, wetOf);
      if head.Some? && rest.Some? then
        var maps := [head.value] + rest.value;
        assert forall k :: 1 <= k < |cs| ==> maps[k] == rest.value[k - 1] && cs[k] == cs[1..][k - 1];
        Some(maps)
      else
        assert head.None? ==> dryOf(cs[0]).None? || wetOf(cs[0]).None?;
        assert rest.None? ==> exists k :: 0 <= k < |cs| - 1 && (dryOf(cs[1..][k]).None? || wetOf(cs[1..][k]).None?);
        None
  }

  /** The first map whose start tag is `tag`, or `None` if there is none
      (a metadata filter followed by taking the first image). */
  function FirstWithStart(maps: seq<FloodMap>, tag: string): (r: Option<FloodMap>)
    ensures r.Some? <==> exists j :: 0 <= j < |maps| && maps[j].startDate == tag
    ensures r.Some? ==> exists j :: 0 <= j < |maps| && maps[j] == r.value && maps[j].startDate == tag &&
                          forall j' :: 0 <= j' < j ==> maps[j'].startDate != tag
  {
    if |maps| == 0 then None
    else if maps[0].startDate == tag then Some(maps[0])
    else
      var r := FirstWithStart(maps[1..], tag);
      assert forall j :: 1 <= j < |maps| ==> maps[j] == maps[1..][j - 1];
      r
  }

  // ---- Interannual sum ---------------------------------------------------

  /** The value of map `m` at pixel `i`, or `None` where it is masked or
      off the map. */
  function PixelAt(m: FloodMap, i: int): Option<int> {
    if 0 <= i < |m.pixels| then m.pixels[i] else None
  }

  /** The term map `m` contributes to the sum at pixel `i`. */
  function ValueAt(i: int): FloodMap -> int {
    (m: FloodMap) => PixelAt(m, i).GetOr(0)
  }

  /** Whether map `m` is flooded at pixel `i`. */
  function FloodedAt(i: int): FloodMap -> bool {
    (m: FloodMap) => PixelAt(m, i) == Some(1)
  }

  /** The number of maps flooded at pixel `i`. */
  function FloodedCount(maps: seq<FloodMap>, i: int): nat {
    |Seqs.Filter(maps, FloodedAt(i))|
  }

  /** The int16 sum of a collection of flood maps over a grid of `grid`
      pixels. A pixel is masked iff every map is masked there; otherwise
      it holds the sum of the valid values. */
  function SumMaps(maps: seq<FloodMap>, grid: nat): (r: Raster<int>)
    ensures |r| == grid
    ensures forall i :: 0 <= i < grid ==>
      (r[i].Some? <==> exists j :: 0 <= j < |maps| && PixelAt(maps[j], i).Some?)
  {
    seq(grid, i =>
      if exists j :: 0 <= j < |maps| && PixelAt(maps[j], i).Some?
      then Some(ToInt16(Seqs.SumBy(maps, ValueAt(i))))
      else None)
  }

  /** For binary maps, the sum at a pixel counts the maps flooded there. */
  lemma {:induction false} SumCountsFloods(maps: seq<FloodMap>, i: int)
    requires forall j :: 0 <= j < |maps| ==> IsBinary(maps[j])
    ensures Seqs.SumBy(maps, ValueAt(i)) == FloodedCount(maps, i)
  {
    if |maps| > 0 {
      SumCountsFloods(maps[1..], i);
      var m := maps[0];
      if 0 <= i < |m.pixels| && m.pixels[i].Some? {
        assert m.pixels[i].value == 0 || m.pixels[i].value == 1;
      }
      var rest := Seqs.Filter(maps[1..], FloodedAt(i));
      if FloodedAt(i)(m) {
        assert Seqs.Filter(maps, FloodedAt(i)) == [m] + rest;
      } else {
        assert Seqs.Filter(maps, FloodedAt(i)) == rest;
      }
    }
  }

  /** The sum of N binary flood maps counts, at each valid pixel, the maps
      flooded there; that count lies in [0, N], so for N up to 32767 (the
      configured 30 years included) the int16 cast never saturates. */
  lemma SumIsFloodCount(maps: seq<FloodMap>, grid: nat, i: int)
    requires forall j :: 0 <= j < |maps| ==> IsBinary(maps[j])
    requires |maps| <= Int16Max
    requires 0 <= i < grid
    requires SumMaps(maps, grid)[i].Some?
    ensures SumMaps(maps, grid)[i].value == FloodedCount(maps, i)
    ensures 0 <= SumMaps(maps, grid)[i].value <= |maps|
  {
    SumCountsFloods(maps, i);
  }

  /** The sum does not depend on the order of the maps. */
  lemma SumMapsPermutation(a: seq<FloodMap>, b: seq<FloodMap>, grid: nat)
    requires multiset(a) == multiset(b)
    ensures SumMaps(a, grid) == SumMaps(b, grid)
  {
    var ra, rb := SumMaps(a, grid), SumMaps(b, grid);
    forall i | 0 <= i < grid
      ensures ra[i] == rb[i]
    {
      Seqs.SumByPermutation(a, b, ValueAt(i));
      if exists j :: 0 <= j < |a| && PixelAt(a[j], i).Some? {
        var j :| 0 <= j < |a| && PixelAt(a[j], i).Some?;
        assert a[j] in multiset(b);
        var k :| 0 <= k < |b| && b[k] == a[j];
      }
      if exists k :: 0 <= k < |b| && PixelAt(b[k], i).Some? {
        var k :| 0 <= k < |b| && PixelAt(b[k], i).Some?;
        assert b[k] in multiset(a);
        var j :| 0 <= j < |a| && a[j] == b[k];
      }
    }
  }

  // ---- Per-year flooded area ---------------------------------------------

  /** One row of the area table: a region, the start tag of the flood map
      it was computed from (stored as "year"), and the flooded area. */
  datatype AreaRow<R> = AreaRow(region: R, year: string, area: real)

  /** The rows of one flood map: one per region, in region order. */
  function RowsOf<R>(m: FloodMap, regions: seq<R>, area: (FloodMap, R) -> real): (rows: seq<AreaRow<R>>)
    ensures |rows| == |regions|
    ensures forall k :: 0 <= k < |regions| ==> rows[k] == AreaRow(regions[k], m.startDate, area(m, regions[k]))
  {
    seq(|regions|, k requires 0 <= k < |regions| => AreaRow(regions[k], m.startDate, area(m, regions[k])))
  }

  /** The flattened area table: the rows of every map, map after map, so
      one row per map and region. The flooded area itself is computed
      elsewhere and given as `area`. */
  function AreaTable<R>(maps: seq<FloodMap>, regions: seq<R>, area: (FloodMap, R) -> real): (rows: seq<AreaRow<R>>)
    ensures |rows| == |maps| * |regions|
  {
    if |maps| == 0 then []
    else
      var rest := AreaTable(maps[1..], regions, area);
      assert |maps| * |regions| == |regions| + (|maps| - 1) * |regions|;
      RowsOf(maps[0], regions, area) + rest
  }

  /** Row `j * |regions| + k` of the table belongs to map `j` and region
      `k`, and carries map `j`'s start tag. */
  lemma {:induction false} AreaTableRow<R>(maps: seq<FloodMap>, regions: seq<R>, area: (FloodMap, R) -> real,
                                           j: nat, k: nat)
    requires j < |maps| && k < |regions|
    ensures j * |regions| + k < |AreaTable(maps, regions, area)|
    ensures AreaTable(maps, regions, area)[j * |regions| + k]
              == AreaRow(regions[k], maps[j].startDate, area(maps[j], regions[k]))
  {
    var n := |regions|;
    var head := RowsOf(maps[0], regions, area);
    var tail := AreaTable(maps[1..], regions, area);
    assert AreaTable(maps, regions, area) == head + tail;
    if j > 0 {
      AreaTableRow(maps[1..], regions, area, j - 1, k);
      assert j * n + k == n + ((j - 1) * n + k);
      assert maps[1..][j - 1] == maps[j];
    }
  }

  /** With a single region, the table has one row per map, in map order,
      each tagged with its map's start date. */
  lemma AreaTableSingleRegion<R>(maps: seq<FloodMap>, region: R, area: (FloodMap, R) -> real)
    ensures |AreaTable(maps, [region], area)| == |maps|
    ensures forall j :: 0 <= j < |maps| ==>
      AreaTable(maps, [region], area)[j] == AreaRow(region, maps[j].startDate, area(maps[j], region))
  {
    forall j | 0 <= j < |maps|
      ensures AreaTable(maps, [region], area)[j] == AreaRow(region, maps[j].startDate, area(maps[j], region))
    {
      AreaTableRow(maps, [region], area, j, 0);
    }
  }
}

=== FILE: gap_fill.dfy ===
/** Gap filling of single-band scenes. The fill raster is the output of a
    local linear regression against the median of neighbouring scenes; the
    regression and the median are computed elsewhere and enter here as an
    opaque raster. This module states how a scene picks its neighbours and
    how the fill raster is merged into it. */
module GapFill {
  import opened Wrappers
  import opened Calendar
  import opened Rasters
  import Seqs

  /** The scenes of the collection dated within one year either side of
      `t`: from `t` minus one year (included) to `t` plus one year
      (excluded), in collection order and with every copy kept, since the
      median over them counts copies. */
  function Neighbourhood(collection: seq<BandScene>, t: Instant): (r: seq<BandScene>)
    requires ValidInstant(t)
    ensures Seqs.IsSubsequence(r, collection)
    ensures forall s :: s in r <==>
      && s in collection
      && !Precedes(s.time, AdvanceYears(t, -1))
      && Precedes(s.time, AdvanceYears(t, 1))
    ensures forall s :: multiset(r)[s]
                     == if InRange(s.time, AdvanceYears(t, -1), AdvanceYears(t, 1)) then multiset(collection)[s] else 0
  {
    FilterDate(collection, AdvanceYears(t, -1), AdvanceYears(t, 1))
  }

  /** A scene of the collection always belongs to its own neighbourhood,
      so the median it is regressed against is never over an empty set. */
  lemma SceneInOwnNeighbourhood(collection: seq<BandScene>, s: BandScene)
    requires s in collection && ValidInstant(s.time)
    ensures s in Neighbourhood(collection, s.time)
  {
    InOwnYearWindow(s.time);
  }

  /** Unmasking that keeps the image's footprint: a valid pixel keeps its
      value; a masked pixel inside the footprint takes the fill value (and
      stays masked where the fill is masked too); a pixel outside the
      footprint stays masked. */
  function Unmask(values: Raster<int>, footprint: seq<bool>, fill: Raster<real>): (r: Raster<real>)
    requires |footprint| == |values| && |fill| == |values|
    ensures |r| == |values|
    ensures forall i :: 0 <= i < |values| && values[i].Some? ==> r[i] == Some(values[i].value as real)
    ensures forall i :: 0 <= i < |values| && values[i].None? ==> r[i] == if footprint[i] then fill[i] else None
  {
    seq(|values|, i requires 0 <= i < |values| =>
      if values[i].Some? then Some(values[i].value as real)
      else if footprint[i] then fill[i]
      else None)
  }

  /** Fills the gaps of scene `s` inside its footprint from the fill raster
      and casts the result to unsigned 16-bit integers. `footprint[i]`
      says whether pixel `i` lies inside the scene's footprint. */
  function GapFill(s: BandScene, footprint: seq<bool>, fill: Raster<real>): (r: BandScene)
    requires |footprint| == |s.values| && |fill| == |s.values|
    ensures r.time == s.time && |r.values| == |s.values|
    // a pixel is valid afterwards iff it was valid before or it lies in the
    // footprint and the fill is valid there
    ensures forall i :: 0 <= i < |s.values| ==>
      (r.values[i].Some? <==> s.values[i].Some? || (footprint[i] && fill[i].Some?))
    // a valid pixel does not look at the fill: it is only cast
    ensures forall i :: 0 <= i < |s.values| && s.values[i].Some? ==>
      r.values[i] == Some(ToUint16(s.values[i].value as real))
    // a valid pixel already in the uint16 range is left unchanged
    ensures forall i :: 0 <= i < |s.values| && s.values[i].Some? && 0 <= s.values[i].value <= Uint16Max ==>
      r.values[i] == s.values[i]
    // a masked pixel in the footprint takes the cast fill value
    ensures forall i :: 0 <= i < |s.values| && s.values[i].None? && footprint[i] && fill[i].Some? ==>
      r.values[i] == Some(ToUint16(fill[i].value))
    // a masked pixel outside the footprint is never filled
    ensures forall i :: 0 <= i < |s.values| && s.values[i].None? && !footprint[i] ==> r.values[i].None?
    // the output is never negative and never above 65535
    ensures forall i :: 0 <= i < |s.values| && r.values[i].Some? ==> 0 <= r.values[i].value <= Uint16Max
  {
    BandScene(s.time, CastUint16(Unmask(s.values, footprint, fill)))
  }

  /** Gap filling of scene `s` of `collection`: the fill raster is fitted
      (by `fit`, the median and local linear regression computed
      elsewhere) from the scene's one-year neighbourhood in the collection
      and the scene itself, then merged into the scene inside its
      footprint. */
  function GapFillIn(collection: seq<BandScene>, s: BandScene, footprint: seq<bool>,
                     fit: (seq<BandScene>, BandScene) -> Raster<real>): (r: BandScene)
    requires ValidInstant(s.time) && |footprint| == |s.values|
    requires |fit(Neighbourhood(collection, s.time), s)| == |s.values|
    ensures r.time == s.time && |r.values| == |s.values|
    // valid pixels only pass the cast; masked pixels in the footprint take
    // the value fitted from the neighbourhood
    ensures forall i :: 0 <= i < |s.values| && s.values[i].Some? ==>
      r.values[i] == Some(ToUint16(s.values[i].value as real))
    ensures forall i :: 0 <= i < |s.values| && s.values[i].None? ==>
      r.values[i] == var f := fit(Neighbourhood(collection, s.time), s)[i];
                     if footprint[i] && f.Some? then Some(ToUint16(f.value)) else None
  {
    GapFill(s, footprint, fit(Neighbourhood(collection, s.time), s))
  }

  /** Scenes dated a year or more away from `s` never change how `s` is
      gap filled, wherever they sit in the collection. */
  lemma GapFillInIgnoresFarScenes(collection: seq<BandScene>, far: seq<BandScene>, s: BandScene,
                                  footprint: seq<bool>, fit: (seq<BandScene>, BandScene) -> Raster<real>)
    requires ValidInstant(s.time) && |footprint| == |s.values|
    requires |fit(Neighbourhood(collection, s.time), s)| == |s.values|
    requires forall x :: x in far ==> !InRange(x.time, AdvanceYears(s.time, -1), AdvanceYears(s.time, 1))
    ensures Neighbourhood(collection + far, s.time) == Neighbourhood(collection, s.time)
    ensures Neighbourhood(far + collection, s.time) == Neighbourhood(collection, s.time)
    ensures GapFillIn(collection + far, s, footprint, fit) == GapFillIn(collection, s, footprint, fit)
    ensures GapFillIn(far + collection, s, footprint, fit) == GapFillIn(collection, s, footprint, fit)
  {
    FilterDateIgnoresOutside(collection, far, AdvanceYears(s.time, -1), AdvanceYears(s.time, 1));
  }

  /** Every pixel inside the footprint is valid. */
  predicate CompleteIn(s: BandScene, footprint: seq<bool>)
    requires |footprint| == |s.values|
  {
    forall i :: 0 <= i < |s.values| && footprint[i] ==> s.values[i].Some?
  }

  predicate InUint16Range(s: BandScene) {
    forall i :: 0 <= i < |s.values| && s.values[i].Some? ==> 0 <= s.values[i].value <= Uint16Max
  }

  /** Gap filling a scene with no masked pixel inside its footprint and
      values in the uint16 range returns it unchanged, whatever the fill
      raster holds. */
  lemma GapFillCompleteIsIdentity(s: BandScene, footprint: seq<bool>, fill: Raster<real>)
    requires |footprint| == |s.values| && |fill| == |s.values|
    requires CompleteIn(s, footprint) && InUint16Range(s)
    ensures GapFill(s, footprint, fill) == s
  {
    var r := GapFill(s, footprint, fill);
    assert r.values == s.values;
  }

  /** Gap filling is idempotent: once filled from a fill raster that is
      valid everywhere, filling again over the same footprint with any
      other fill raster changes nothing. */
  lemma GapFillIdempotent(s: BandScene, footprint: seq<bool>, fill: Raster<real>, fill': Raster<real>)
    requires |footprint| == |s.values| && |fill| == |s.values| && |fill'| == |s.values|
    requires forall i :: 0 <= i < |fill| ==> fill[i].Some?
    ensures GapFill(GapFill(s, footprint, fill), footprint, fill') == GapFill(s, footprint, fill)
  {
    var once := GapFill(s, footprint, fill);
    GapFillCompleteIsIdentity(once, footprint, fill');
  }
}

=== FILE: rasters.dfy ===
/** Abstract rasters. A raster is a sequence of pixels over a fixed grid;
    each pixel is `Some(value)` where it is valid and `None` where it is
    masked. */
module Rasters {
  import opened Wrappers
  import opened Calendar
  import Seqs

  type Raster<T> = seq<Option<T>>

  /** One pixel of a surface-reflectance scene: the 16-bit `pixel_qa`
      quality word and the reflectance bands, each with its own mask. */
  datatype LandsatPixel = LandsatPixel(qa: Option<bv16>, bands: seq<Option<int>>)

  /** A multi-band scene with its acquisition time. */
  datatype Scene = Scene(time: Instant, pixels: seq<LandsatPixel>)

  /** A single-band scene (after selecting the SWIR band B7). */
  datatype BandScene = BandScene(time: Instant, values: Raster<int>)

  const Uint16Max: int := 65535
  const Int16Min: int := -32768
  const Int16Max: int := 32767

  /** Cast to an unsigned 16-bit integer: truncation toward zero, then
      saturation to [0, 65535]. */
  function ToUint16(x: real): (r: int)
    ensures 0 <= r <= Uint16Max
    ensures 0.0 <= x < Uint16Max as real ==> r as real <= x < r as real + 1.0
    ensures x < 0.0 ==> r == 0
    ensures x >= Uint16Max as real ==> r == Uint16Max
  {
    if x < 0.0 then 0 else if x >= Uint16Max as real then Uint16Max else x.Floor
  }

  /** An integer already in the unsigned 16-bit range survives the cast. */
  lemma ToUint16OfInRange(v: int)
    requires 0 <= v <= Uint16Max
    ensures ToUint16(v as real) == v
  {
  }

  /** Cast to a signed 16-bit integer, saturating at the bounds. */
  function ToInt16(x: int): (r: int)
    ensures Int16Min <= r <= Int16Max
    ensures Int16Min <= x <= Int16Max ==> r == x
    ensures x < Int16Min ==> r == Int16Min
    ensures x > Int16Max ==> r == Int16Max
  {
    if x < Int16Min then Int16Min else if x > Int16Max then Int16Max else x
  }

  /** Pixelwise uint16 cast of a real-valued raster; masks are kept. */
  function CastUint16(r: Raster<real>): (c: Raster<int>)
    ensures |c| == |r|
    ensures forall i :: 0 <= i < |r| ==> (c[i].Some? <==> r[i].Some?)
    ensures forall i :: 0 <= i < |r| && r[i].Some? ==> c[i].value == ToUint16(r[i].value)
  {
    seq(|r|, i requires 0 <= i < |r| =>
      if r[i].Some? then Some(ToUint16(r[i].value)) else None)
  }

  /** The test of a date filter: the scene was acquired in [start, end). */
  function Dated(start: Instant, end: Instant): BandScene -> bool {
    (s: BandScene) => InRange(s.time, start, end)
  }

  /** The scenes acquired in [start, end), in collection order (a date
      filter on an image collection). */
  function FilterDate(scenes: seq<BandScene>, start: Instant, end: Instant): (r: seq<BandScene>)
    ensures Seqs.IsSubsequence(r, scenes)
    ensures forall i :: 0 <= i < |r| ==> InRange(r[i].time, start, end)
    ensures forall s :: s in r <==> s in scenes && InRange(s.time, start, end)
    // every copy of a scene in range is kept, every copy of one out of range is dropped
    ensures forall s :: multiset(r)[s] == if InRange(s.time, start, end) then multiset(scenes)[s] else 0
  {
    var keep := Dated(start, end);
    var r := Seqs.Filter(scenes, keep);
    forall s
      ensures (s in r <==> s in scenes && keep(s))
      ensures multiset(r)[s] == if keep(s) then multiset(scenes)[s] else 0
    {
      Seqs.FilterMembership(scenes, keep, s);
      Seqs.FilterCounts(scenes, keep, s);
    }
    r
  }

  /** Scenes acquired outside [start, end) do not change a date filter's
      result, wherever they sit in the collection. */
  lemma FilterDateIgnoresOutside(scenes: seq<BandScene>, outside: seq<BandScene>, start: Instant, end: Instant)
    requires forall x :: x in outside ==> !InRange(x.time, start, end)
    ensures FilterDate(scenes + outside, start, end) == FilterDate(scenes, start, end)
    ensures FilterDate(outside + scenes, start, end) == FilterDate(scenes, start, end)
  {
    var keep := Dated(start, end);
    assert forall i :: 0 <= i < |outside| ==> !keep(outside[i]);
    Seqs.FilterKeepsNone(outside, keep);
    Seqs.FilterConcat(scenes, outside, keep);
    Seqs.FilterConcat(outside, scenes, keep);
  }

  /** A pixel with every band, and the quality word, masked out. */
  function Blank(p: LandsatPixel): (r: LandsatPixel)
    ensures r.qa.None? && |r.bands| == |p.bands|
    ensures forall b :: 0 <= b < |r.bands| ==> r.bands[b].None?
  {
    LandsatPixel(None, seq(|p.bands|, _ => None))
  }

  /** `after` arises from `before` by masking only: each valid quality
      word or band value of `after` is valid in `before` with the same
      value, and the band layout is unchanged. */
  predicate MaskedFrom(after: seq<LandsatPixel>, before: seq<LandsatPixel>) {
    && |after| == |before|
    && forall i :: 0 <= i < |after| ==>
         && |after[i].bands| == |before[i].bands|
         && (after[i].qa.Some? ==> after[i].qa == before[i].qa)
         && forall b :: 0 <= b < |after[i].bands| && after[i].bands[b].Some? ==>
              after[i].bands[b] == before[i].bands[b]
  }

  /** Restricts the mask of a scene: pixel `i` keeps all its data where
      `keep(p)` holds and is masked out in every band otherwise. Masking
      never reveals data and never alters a surviving value. */
  function UpdateMask(pixels: seq<LandsatPixel>, keep: LandsatPixel -> bool): (r: seq<LandsatPixel>)
    ensures MaskedFrom(r, pixels)
    ensures forall i :: 0 <= i < |pixels| ==>
      r[i] == if keep(pixels[i]) then pixels[i] else Blank(pixels[i])
  {
    seq(|pixels|, i requires 0 <= i < |pixels| =>
      if keep(pixels[i]) then pixels[i] else Blank(pixels[i]))
  }

  /** Masking twice only masks: `MaskedFrom` composes. */
  lemma MaskedFromTransitive(a: seq<LandsatPixel>, b: seq<LandsatPixel>, c: seq<LandsatPixel>)
    requires MaskedFrom(a, b) && MaskedFrom(b, c)
    ensures MaskedFrom(a, c)
  {
  }

  /** Selects band `b` of every pixel as a single-band scene. */
  function SelectBand(s: Scene, b: nat): (r: BandScene)
    requires forall i :: 0 <= i < |s.pixels| ==> b < |s.pixels[i].bands|
    ensures r.time == s.time && |r.values| == |s.pixels|
    ensures forall i :: 0 <= i < |s.pixels| ==> r.values[i] == s.pixels[i].bands[b]
  {
    BandScene(s.time, seq(|s.pixels|, i requires 0 <= i < |s.pixels| => s.pixels[i].bands[b]))
  }
}

=== FILE: seqs.dfy ===
/** Order-preserving filtering and summation over sequences, with the
    facts the collection operations of the pipeline rely on. */
module Seqs {

  /** `a` can be obtained from `b` by deleting elements, keeping the order
      of the rest. */
  ghost predicate IsSubsequence<T>(a: seq<T>, b: seq<T>)
    decreases |b|
  {
    || |a| == 0
    || (&& |b| > 0
        && ((a[0] == b[0] && IsSubsequence(a[1..], b[1..])) || IsSubsequence(a, b[1..])))
  }

  /** The elements of `s` that satisfy `keep`, in their original order
      (an image-collection filter). */
  function Filter<T>(s: seq<T>, keep: T -> bool): (r: seq<T>)
    ensures |r| <= |s|
    ensures IsSubsequence(r, s)
    ensures forall i :: 0 <= i < |r| ==> keep(r[i])
  {
    if |s| == 0 then []
    else
      var rest := Filter(s[1..], keep);
      if keep(s[0]) then [s[0]] + rest else rest
  }

  /** The filter keeps every occurrence of an element that passes and no
      occurrence of one that fails. */
  lemma {:induction false} FilterCounts<T>(s: seq<T>, keep: T -> bool, x: T)
    ensures multiset(Filter(s, keep))[x] == if keep(x) then multiset(s)[x] else 0
  {
    if |s| > 0 {
      FilterCounts(s[1..], keep, x);
      assert s == [s[0]] + s[1..];
      assert multiset(s) == multiset{s[0]} + multiset(s[1..]);
      var rest := Filter(s[1..], keep);
      if keep(s[0]) {
        assert multiset([s[0]] + rest) == multiset{s[0]} + multiset(rest);
      }
    }
  }

  /** An element is kept iff it occurs in the input and passes. */
  lemma FilterMembership<T>(s: seq<T>, keep: T -> bool, x: T)
    ensures x in Filter(s, keep) <==> x in s && keep(x)
  {
    var r := Filter(s, keep);
    FilterCounts(s, keep, x);
    assert x in r <==> multiset(r)[x] > 0;
    assert x in s <==> multiset(s)[x] > 0;
  }

  /** A filter every element passes removes nothing. */
  lemma {:induction false} FilterKeepsAll<T>(s: seq<T>, keep: T -> bool)
    requires forall i :: 0 <= i < |s| ==> keep(s[i])
    ensures Filter(s, keep) == s
  {
    if |s| > 0 {
      FilterKeepsAll(s[1..], keep);
      assert s == [s[0]] + s[1..];
    }
  }

  /** A filter no element passes removes everything. */
  lemma {:induction false} FilterKeepsNone<T>(s: seq<T>, keep: T -> bool)
    requires forall i :: 0 <= i < |s| ==> !keep(s[i])
    ensures Filter(s, keep) == []
  {
    if |s| > 0 {
      FilterKeepsNone(s[1..], keep);
    }
  }

  /** Filtering distributes over concatenation. */
  lemma {:induction false} FilterConcat<T>(a: seq<T>, b: seq<T>, keep: T -> bool)
    ensures Filter(a + b, keep) == Filter(a, keep) + Filter(b, keep)
  {
    if |a| == 0 {
      assert a + b == b;
    } else {
      assert (a + b)[1..] == a[1..] + b;
      FilterConcat(a[1..], b, keep);
    }
  }

  /** Being a subsequence is transitive: deleting elements twice is
      deleting elements once. */
  lemma {:induction false} SubsequenceTransitive<T>(a: seq<T>, b: seq<T>, c: seq<T>)
    requires IsSubsequence(a, b) && IsSubsequence(b, c)
    ensures IsSubsequence(a, c)
    decreases |c|
  {
    if |a| > 0 {
      if IsSubsequence(b, c[1..]) {
        SubsequenceTransitive(a, b, c[1..]);
      } else if a[0] == b[0] && IsSubsequence(a[1..], b[1..]) {
        SubsequenceTransitive(a[1..], b[1..], c[1..]);
      } else {
        SubsequenceTransitive(a, b[1..], c[1..]);
      }
    }
  }

  /** When exactly the element at index `k` fails the predicate, the
      filter deletes that element and nothing else. */
  lemma {:induction false} FilterRemovesOnly<T>(s: seq<T>, keep: T -> bool, k: nat)
    requires k < |s|
    requires !keep(s[k])
    requires forall i :: 0 <= i < |s| && i != k ==> keep(s[i])
    ensures Filter(s, keep) == s[..k] + s[k + 1..]
  {
    var tail := s[1..];
    if k == 0 {
      FilterKeepsAll(tail, keep);
    } else {
      assert keep(s[0]);
      assert forall i :: 0 <= i < |tail| && i != k - 1 ==> keep(tail[i]);
      FilterRemovesOnly(tail, keep, k - 1);
      assert s[..k] == [s[0]] + tail[..k - 1];
      assert s[k + 1..] == tail[k..];
    }
  }

  /** Independent filters can be applied in either order. */
  lemma {:induction false} FilterCommutes<T>(s: seq<T>, p: T -> bool, q: T -> bool)
    ensures Filter(Filter(s, p), q) == Filter(Filter(s, q), p)
  {
    if |s| > 0 {
      FilterCommutes(s[1..], p, q);
      var fp := Filter(s[1..], p);
      var fq := Filter(s[1..], q);
      if p(s[0]) {
        assert ([s[0]] + fp)[1..] == fp;
      }
      if q(s[0]) {
        assert ([s[0]] + fq)[1..] == fq;
      }
    }
  }

  /** The sum of `f` over the elements of `s`. */
  function SumBy<T>(s: seq<T>, f: T -> int): int
  {
    if |s| == 0 then 0 else f(s[0]) + SumBy(s[1..], f)
  }

  lemma {:induction false} SumByConcat<T>(a: seq<T>, b: seq<T>, f: T -> int)
    ensures SumBy(a + b, f) == SumBy(a, f) + SumBy(b, f)
  {
    if |a| == 0 {
      assert a + b == b;
    } else {
      assert (a + b)[1..] == a[1..] + b;
      SumByConcat(a[1..], b, f);
    }
  }

  /** A sum does not depend on the order of its terms: two sequences with
      the same multiset of elements have the same sum. */
  lemma {:induction false} SumByPermutation<T>(a: seq<T>, b: seq<T>, f: T -> int)
    requires multiset(a) == multiset(b)
    ensures SumBy(a, f) == SumBy(b, f)
    decreases |a|
  {
    if |a| == 0 {
      assert |b| == |multiset(b)| == 0;
    } else {
      assert a[0] in multiset(b);
      var j :| 0 <= j < |b| && b[j] == a[0];
      var rest := b[..j] + b[j + 1..];
      assert b == b[..j] + [b[j]] + b[j + 1..];
      assert a == [a[0]] + a[1..];
      assert multiset(a[1..]) == multiset(a) - multiset{a[0]};
      assert multiset(b) == multiset(b[..j]) + multiset{b[j]} + multiset(b[j + 1..]);
      assert multiset(rest) == multiset(b[..j]) + multiset(b[j + 1..]);
      assert multiset(rest) == multiset(b) - multiset{b[j]};
      SumByPermutation(a[1..], rest, f);
      SumByConcat(b[..j] + [b[j]], b[j + 1..], f);
      SumByConcat(b[..j], [b[j]], f);
      SumByConcat(b[..j], b[j + 1..], f);
    }
  }
}

=== FILE: wrappers.dfy ===
/** The Option datatype: a masked pixel, a missing reduction result or a
    failed parse is `None`; a present value is `Some(value)`. */
module Wrappers {

  datatype Option<+T> = None | Some(value: T) {

    /** Returns the encapsulated value, or `default` when there is none. */
    function GetOr(default: T): T {
      match this
      case Some(v) => v
      case None => default
    }
  }
}
